=== FILE: README.md ===
# Crash interceptor of Dalamud.Boot, modelled in Dafny

Dalamud.Boot installs a process-wide vectored exception handler (VEH) in the
game process. For each fault the handler decides whether the fault is worth
reporting. It reports only when the exception code is one of 32 fatal
status codes and the faulting instruction lies in the game executable
`ffxiv_dx11.exe`. For such a fault it writes a text crash log (call stack,
registers, stack memory), writes a minidump, shows a blocking alert, and
then returns "continue search", so the OS's normal fault handling still
takes place.

This project models the decision logic of `Dalamud.Boot/veh.cpp`. Every OS
facility the handler consults is an oracle, a field of
`Environment.Oracles`: module handle lookup, module file name, symbol lookup,
two 8-byte memory reads (`readQword`, the direct dereference of a stack
slot, and `copyQword`, what ReadProcessMemory leaves in its buffer) and one
unwinder step. Every property below holds for
every choice of these functions.

Modules, one per file:

- `Words`: DWORD and DWORD64 as bounded integers; wrapping subtraction.
- `Numerals`: `{:X}` (upper-case hex) and `{}` (decimal) rendering, with the parser that inverts them.
- `FileNames`: `path::filename()` and the case-insensitive `_wcsicmp` comparison.
- `Environment`: the oracles.
- `Classifier`: `is_whitelist_exception`, `get_module_file_and_base`, `is_ffxiv_address`.
- `Resolver`: `to_address_string`. The result carries the text and the list of oracle queries it issued, each tagged with its nesting level.
- `Report`: `print_exception_info`, covering the stack walk, the register section and the stack section.
- `Handler`: `exception_handler`. A run is its ending, its effects in order, and the message-open flag afterwards.
- `Lifecycle`: `veh::add_handler` and `veh::remove_handler` over the stored handle and the OS handler chain.

Facts about `veh.cpp` that the model follows:

- The Registers section lists 17 registers, RIP included (veh.cpp:148-165).
- The user-mode range check is strict at both ends, `0x10000 < a < 0x7FFFFFFE0000`, both for the pointer read (veh.cpp:101) and for the Stack section (veh.cpp:169).
- The pointer read is issued before the symbol lookup and does not depend on its outcome (veh.cpp:101-111). A found symbol only discards the value read.
- The result of ReadProcessMemory is ignored (veh.cpp:103). Whatever the copy left in the zero-initialised buffer, even after a failed partial copy, is taken as the pointee.
- The stack walk detects only a frame whose return address equals its own program counter (veh.cpp:140). `Report.TwoFrameCycleExhaustsFuel` shows that a two-frame cycle is not detected.
- The log header is written before the symbol engine's module list is refreshed, and the report after it (veh.cpp:209-214).
- A fault that enters the handler while an alert is open spins forever (veh.cpp:186-187). The spin never re-reads the flag, so the stall is permanent, although the comment at veh.cpp:185 speaks of blocking only "while the message box is open".

The exception codes' numeric values are the NTSTATUS values of the Windows
SDK headers. `veh.cpp` names them only symbolically.

## Model

| member | source | states |
|---|---|---|
| `Classifier.IsWhitelistException` | Dalamud.Boot/veh.cpp:10-49 | true exactly for the enumerated fatal status codes, false for every other code |
| `Classifier.WhitelistSize` | Dalamud.Boot/veh.cpp:14-45 | the enumerated codes are 32 distinct values |
| `Classifier.OnlyErrorSeverityWhitelisted` | Dalamud.Boot/veh.cpp:10-49 | every whitelisted code has error severity; breakpoint, single-step and C++ `throw` codes are never whitelisted |
| `Classifier.ModuleOf` | Dalamud.Boot/veh.cpp:53-66 | the owning image is found exactly when the handle lookup succeeds and the file-name query returns a non-empty path; it carries that handle as base and that path |
| `Classifier.IsGameAddress` | Dalamud.Boot/veh.cpp:69-75 | true exactly when the owning image is found and its file name equals `ffxiv_dx11.exe` ignoring ASCII case |
| `Classifier.GameAddressByFileName` | Dalamud.Boot/veh.cpp:69-75 | for an image at `dir\name`, the address is the game's exactly when `name` equals `ffxiv_dx11.exe` ignoring case, whatever the directory |
| `FileNames.FileName` | Dalamud.Boot/veh.cpp:73 | the file name is the suffix of the path after its last separator and contains no separator |
| `FileNames.EqualsIgnoreCase` | Dalamud.Boot/veh.cpp:73 | equal lengths and equal characters after folding A-Z to a-z |
| `Words.Sub64` | Dalamud.Boot/veh.cpp:107 | the DWORD64 difference wraps modulo 2^64: base plus the result gives back the address, and the result is the plain difference when base <= address |
| `Numerals.HexRoundTrip` | Dalamud.Boot/veh.cpp:107-108 | `{:X}` text denotes the number rendered, and every canonical upper-case hex string is the rendering of its value |
| `Numerals.DecRoundTrip` | Dalamud.Boot/veh.cpp:131 | the decimal frame index denotes the index, and the rendering is a bijection onto canonical decimal strings |
| `Resolver.OuterQueries` | Dalamud.Boot/veh.cpp:98-111 | the outer call's queries are the module lookup first and the symbol lookup last, all of the address itself; the one memory read between them exists exactly when the read is attempted |
| `Resolver.ToAddressString` | Dalamud.Boot/veh.cpp:94-114 | the text starts with the address part; the trace starts with the outer queries, with the read guarded by the request and the strict range check; whatever follows belongs to the pointee, one level deeper, and reads no memory; without dereferencing only the two lookups happen |
| `Resolver.QueryShape` | Dalamud.Boot/veh.cpp:94-114 | the trace opens with the module lookup of the address; recursion depth is at most 1, and none without dereferencing; the only memory read is the second query, of the address itself, and happens only when asked and strictly in range |
| `Resolver.AddressTextLocatesAddress` | Dalamud.Boot/veh.cpp:106-108 | with an owning image the text is `<file name>+<hex>` and the hex denotes address minus base (wrapping); without one the text is the address in hex |
| `Resolver.SymbolTextShowsDisplacement` | Dalamud.Boot/veh.cpp:112 | a zero displacement shows the bare name; otherwise the name is followed by `+0x` and hex that denotes the displacement |
| `Resolver.ReadGuardAndOrder` | Dalamud.Boot/veh.cpp:100-111 | a memory read is issued if and only if dereferencing is asked for and the address is strictly in range, and it comes before the symbol lookup |
| `Resolver.SymbolSuppressesPointee` | Dalamud.Boot/veh.cpp:110-112 | with a symbol the text is the address part, a tab and the parenthesised symbol, and no nested rendering happens |
| `Resolver.PointeeExactlyWhenNonZeroRead` | Dalamud.Boot/veh.cpp:100-113 | a bracketed pointee is appended if and only if no symbol is found, the read is attempted and the word the copy left in the buffer is non-zero; it is that word rendered without dereferencing; otherwise, with no symbol, the text is the address part alone |
| `Report.Unwind` | Dalamud.Boot/veh.cpp:133-140 | the walk records at most as many frames as its fuel |
| `Report.UnwindFollowsSteps` | Dalamud.Boot/veh.cpp:133-140 | the i-th recorded PC is the PC after i+1 successful steps; every recorded frame but the last met the loop condition; a walk that stops before its fuel runs out stopped on a failed step, a zero return address or PC equal to the return address |
| `Report.SelfLoopStops` | Dalamud.Boot/veh.cpp:140 | a frame whose return address equals its PC is recorded and ends the walk |
| `Report.TwoFrameCycleExhaustsFuel` | Dalamud.Boot/veh.cpp:133-140 | two frames that step to each other are not detected: the walk runs until the fuel is used up |
| `Report.CallStack` | Dalamud.Boot/veh.cpp:129-140 | frame 0 is the faulting RIP; frame indices are 0, 1, 2, … in order; frames 1.. are the walked PCs, frame i the PC reached after i successful unwinder steps, one frame per step; at most fuel + 1 frames |
| `Report.FrameLineShowsFrame` | Dalamud.Boot/veh.cpp:131-138 | a Call Stack line reads back: canonical decimal digits between `  [` and `]` plus tab denote the frame's ordinal, and the PC rendered without dereferencing follows |
| `Report.CallStackLineShowsOrdinal` | Dalamud.Boot/veh.cpp:129-138 | line i of the Call Stack section shows ordinal i and the PC of the i-th walked frame |
| `Report.WalkStack` | Dalamud.Boot/veh.cpp:121-140 | the do-while loop produces exactly the frame records of the recursive walk |
| `Report.RegisterLineShowsRegister` | Dalamud.Boot/veh.cpp:148-165 | line i of the Registers section is its name's tag, a tab, and the value of the very register that name denotes, rendered with dereferencing |
| `Report.RegisterOrderPairsNames` | Dalamud.Boot/veh.cpp:146-165 | each of the 17 Registers lines pairs a register's name with that register's own value, in the fixed order |
| `Report.ReadableRun` | Dalamud.Boot/veh.cpp:174-175 | counts the consecutive readable slots: all of them are readable, and the slot after them is unreadable or past the sixteenth |
| `Report.StackSlots` | Dalamud.Boot/veh.cpp:169-177 | line k shows slot k (RSP + 8k, read and rendered with dereferencing); the section is complete with 16 lines if and only if all 16 slots are readable, and is otherwise cut short at the first unreadable slot |
| `Report.SlotOffsets` | Dalamud.Boot/veh.cpp:174-175 | slot k is labelled with hex that denotes 8k, from `[RSP+0]` to `[RSP+78]` |
| `Report.ExceptionInfo` | Dalamud.Boot/veh.cpp:117-178 | one Call Stack line per walked frame; the 17 register lines in the fixed order; a Stack section present if and only if RSP is strictly in range; a fault only on an unreadable slot |
| `Report.ReportLayout` | Dalamud.Boot/veh.cpp:119-177 | the report's lines are the Call Stack and Registers sections, each a blank line, title, `{`, entries, `}`, then the Stack section only when present; it closes with `}` when complete and is left unclosed after a fault |
| `Handler.HeaderLocatesFault` | Dalamud.Boot/veh.cpp:209-211 | the first header line names the faulting instruction, address part first; the second carries upper-case hex that denotes the exception code; the third the time stamp |
| `Handler.ReportingRun` | Dalamud.Boot/veh.cpp:207-243 | the header is logged first, then the module list is refreshed, then the report is logged, all before anything can fault; returns "continue search" if and only if the report completes; the flag is clear afterwards; the alert is immediately preceded by setting the flag and immediately followed by clearing it |
| `Handler.ExceptionHandler` | Dalamud.Boot/veh.cpp:183-244 | with the flag set it stalls and does nothing; every return is "continue search" with the flag clear; no effect at all unless the code is whitelisted and RIP is in the game executable, and a log header and report for every fault that is; the flag is set just before the alert and cleared just after it |
| `Handler.AcceptedFaultIsReported` | Dalamud.Boot/veh.cpp:207-243 | an accepted fault with a readable stack logs the header, refreshes the module list, logs the report, writes the dump, shows the alert between flag set and clear, and returns "continue search" |
| `Handler.AccessViolationInGameIsReported` | Dalamud.Boot/veh.cpp:188-214 | an access violation in the game executable produces a crash log, header and report |
| `Handler.BreakpointPassesThrough` | Dalamud.Boot/veh.cpp:189-190 | a breakpoint returns "continue search" at once, with no effects |
| `Handler.ReportedRunBracketsAlert` | Dalamud.Boot/veh.cpp:207-241 | a reported fault's run is seven effects, the first four touching no flag, then set, alert, clear |
| `Handler.FlagUpDuringAlert` | Dalamud.Boot/veh.cpp:239-241 | around set, alert, clear, the flag is up while the alert shows and down afterwards |
| `Handler.AlertSerialisesConcurrentFaults` | Dalamud.Boot/veh.cpp:185-187 | a second fault entering while the alert shows spins; one entering after the flag is cleared is handled exactly like a first fault |
| `Lifecycle.AddHandler` | Dalamud.Boot/veh.cpp:249-257 | with a handle held it returns false and changes nothing; otherwise it stores the registration result, returns whether it is non-null, always initialises the symbol engine, and keeps exactly one registered interceptor per stored handle |
| `Lifecycle.RemoveHandler` | Dalamud.Boot/veh.cpp:259-267 | returns true if and only if a handle is held and unregistration succeeds, and then clears the handle and removes it from the chain; otherwise nothing changes |
| `Lifecycle.InstallTwice` | Dalamud.Boot/veh.cpp:249-257 | install, then install again: true then false, with exactly one interceptor registered |
| `Lifecycle.RemoveBeforeInstall` | Dalamud.Boot/veh.cpp:259-267 | removing before any install returns false and changes nothing |
| `Lifecycle.InstallThenRemove` | Dalamud.Boot/veh.cpp:249-267 | install then remove leaves no interceptor, so a later fault is not delivered, and a new install succeeds |
| `Lifecycle.FailedRemoveKeepsHandle` | Dalamud.Boot/veh.cpp:261-266 | a failed unregistration keeps the handle and the interceptor, and a later successful one removes it |

## Left out

- Win32 calls are oracles, not models. This covers GetModuleHandleExA, GetModuleFileNameW, SymFromAddrW, ReadProcessMemory and StackWalk64. The two memory oracles are independent: `readQword` is the direct dereference of a stack slot, and `copyQword` is what ReadProcessMemory leaves in the buffer. The model does not tie a successful copy to the stored word. SymInitializeW, SymRefreshModuleList, MiniDumpWriteDump and MessageBoxW appear only as effects or counters.
- Symbol lookup is one fixed function. The refresh of the symbol engine's module list therefore has no influence on the rendered text.
- The path buffer limit of 1024 characters and the symbol-name limit of MAX_SYM_NAME are not modelled. The oracles return the strings the program would see.
- `_wcsicmp` is modelled for the default "C" locale, which folds only A-Z. Locale-dependent folding of other characters is not modelled.
- `path::filename()` is modelled by splitting at `\` and `/`. Root names, whether drive letters (`C:`) or UNC shares (`\\server\share`), are not treated specially.
- StackWalk64 reads and updates a copy of the thread context (veh.cpp:128, 135), and the frame cursor has fields beyond the four the model keeps. Both are left out: `Environment.StackFrame` holds only the program counter, return address, stack and frame pointers, so `stepFrame` gives the same step for the same four values. This is what makes the premise of `Report.TwoFrameCycleExhaustsFuel` a real cycle. The source leaves the frame's return address uninitialised before the first step; the model starts it at 0, and the loop does not read it before that step.
- Report.Unwind: the walk is bounded by a fuel parameter. The source's loop has no bound other than the self-loop check and whatever bound StackWalk64 itself applies.
- Handler.ExceptionHandler: on a fault while reading a stack slot, the report effect holds every line produced so far. Which of them `wofstream` buffering would actually have flushed is not modelled. Neither is the OS re-dispatching that secondary fault.
- The time stamp is a parameter. It depends on the clock and the time zone.
- The `for(;;) Sleep(1)` spin is modelled as the ending `SpinsForever`. Scheduling, memory ordering of the unsynchronised flag, and two threads reporting at the same moment are concurrency and are not modelled.
- Artefact paths are not modelled. This covers `_wcsdup` path construction next to the component's own image, the `NDEBUG`-dependent dump file name and the alert text. Nor are failures of file creation, which the source does not check.
- The log text is modelled as a sequence of lines: the header's `LogHeader.Lines()` followed by the report's `ExceptionReport.Lines()`. Line breaks, `std::endl` flushing and the file's truncation on open are I/O.

=== FILE: classifier.dfy ===
/**
 * The two checks that decide whether a fault is reported: the exception
 * code is one of a fixed set of fatal status codes, and the faulting
 * instruction lies in the game executable.
 */
module Classifier {
  import opened Wrappers
  import opened Words
  import opened FileNames
  import opened Environment

  // NTSTATUS values of the whitelisted codes, as the Windows SDK defines them.
  const STATUS_ACCESS_VIOLATION: U32 := 0xC000_0005
  const STATUS_IN_PAGE_ERROR: U32 := 0xC000_0006
  const STATUS_INVALID_HANDLE: U32 := 0xC000_0008
  const STATUS_INVALID_PARAMETER: U32 := 0xC000_000D
  const STATUS_NO_MEMORY: U32 := 0xC000_0017
  const STATUS_ILLEGAL_INSTRUCTION: U32 := 0xC000_001D
  const STATUS_NONCONTINUABLE_EXCEPTION: U32 := 0xC000_0025
  const STATUS_INVALID_DISPOSITION: U32 := 0xC000_0026
  const STATUS_ARRAY_BOUNDS_EXCEEDED: U32 := 0xC000_008C
  const STATUS_FLOAT_DENORMAL_OPERAND: U32 := 0xC000_008D
  const STATUS_FLOAT_DIVIDE_BY_ZERO: U32 := 0xC000_008E
  const STATUS_FLOAT_INEXACT_RESULT: U32 := 0xC000_008F
  const STATUS_FLOAT_INVALID_OPERATION: U32 := 0xC000_0090
  const STATUS_FLOAT_OVERFLOW: U32 := 0xC000_0091
  const STATUS_FLOAT_STACK_CHECK: U32 := 0xC000_0092
  const STATUS_FLOAT_UNDERFLOW: U32 := 0xC000_0093
  const STATUS_INTEGER_DIVIDE_BY_ZERO: U32 := 0xC000_0094
  const STATUS_INTEGER_OVERFLOW: U32 := 0xC000_0095
  const STATUS_PRIVILEGED_INSTRUCTION: U32 := 0xC000_0096
  const STATUS_STACK_OVERFLOW: U32 := 0xC000_00FD
  const STATUS_DLL_NOT_FOUND: U32 := 0xC000_0135
  const STATUS_ORDINAL_NOT_FOUND: U32 := 0xC000_0138
  const STATUS_ENTRYPOINT_NOT_FOUND: U32 := 0xC000_0139
  const STATUS_DLL_INIT_FAILED: U32 := 0xC000_0142
  const STATUS_CONTROL_STACK_VIOLATION: U32 := 0xC000_01B2
  const STATUS_FLOAT_MULTIPLE_FAULTS: U32 := 0xC000_02B4
  const STATUS_FLOAT_MULTIPLE_TRAPS: U32 := 0xC000_02B5
  const STATUS_HEAP_CORRUPTION: U32 := 0xC000_0374
  const STATUS_STACK_BUFFER_OVERRUN: U32 := 0xC000_0409
  const STATUS_INVALID_CRUNTIME_PARAMETER: U32 := 0xC000_0417
  const STATUS_THREAD_NOT_RUNNING: U32 := 0xC000_0516
  const STATUS_ALREADY_REGISTERED: U32 := 0xC000_0718

  // Codes that must pass through untouched.
  const STATUS_BREAKPOINT: U32 := 0x8000_0003
  const STATUS_SINGLE_STEP: U32 := 0x8000_0004
  /** The code the Microsoft C++ runtime raises for `throw`. */
  const CPP_EH_EXCEPTION: U32 := 0xE06D_7363

  // The enumerated fatal conditions the interceptor reports, in the order the
  // source lists them, in four groups of eight (every code of a group is
  // below every code of the next).
  const WhitelistGroup1: set<U32> := {
    STATUS_ACCESS_VIOLATION, STATUS_IN_PAGE_ERROR, STATUS_INVALID_HANDLE,
    STATUS_INVALID_PARAMETER, STATUS_NO_MEMORY, STATUS_ILLEGAL_INSTRUCTION,
    STATUS_NONCONTINUABLE_EXCEPTION, STATUS_INVALID_DISPOSITION
  }
  const WhitelistGroup2: set<U32> := {
    STATUS_ARRAY_BOUNDS_EXCEEDED, STATUS_FLOAT_DENORMAL_OPERAND,
    STATUS_FLOAT_DIVIDE_BY_ZERO, STATUS_FLOAT_INEXACT_RESULT,
    STATUS_FLOAT_INVALID_OPERATION, STATUS_FLOAT_OVERFLOW,
    STATUS_FLOAT_STACK_CHECK, STATUS_FLOAT_UNDERFLOW
  }
  const WhitelistGroup3: set<U32> := {
    STATUS_INTEGER_DIVIDE_BY_ZERO, STATUS_INTEGER_OVERFLOW,
    STATUS_PRIVILEGED_INSTRUCTION, STATUS_STACK_OVERFLOW,
    STATUS_DLL_NOT_FOUND, STATUS_ORDINAL_NOT_FOUND,
    STATUS_ENTRYPOINT_NOT_FOUND, STATUS_DLL_INIT_FAILED
  }
  const WhitelistGroup4: set<U32> := {
    STATUS_CONTROL_STACK_VIOLATION, STATUS_FLOAT_MULTIPLE_FAULTS,
    STATUS_FLOAT_MULTIPLE_TRAPS, STATUS_HEAP_CORRUPTION,
    STATUS_STACK_BUFFER_OVERRUN, STATUS_INVALID_CRUNTIME_PARAMETER,
    STATUS_THREAD_NOT_RUNNING, STATUS_ALREADY_REGISTERED
  }

  /** All whitelisted codes. */
  const WhitelistedCodes: set<U32> := WhitelistGroup1 + WhitelistGroup2 + WhitelistGroup3 + WhitelistGroup4

  /** The file name of the game executable. */
  const GAME_EXECUTABLE: string := "ffxiv_dx11.exe"

  /** `is_whitelist_exception`: one `case` per enumerated code, `false` by default. */
  function IsWhitelistException(code: U32): (r: bool)
    ensures r <==> code in WhitelistGroup1 || code in WhitelistGroup2 || code in WhitelistGroup3 || code in WhitelistGroup4
  {
    match code
    case 0xC000_0005 => true
    case 0xC000_0006 => true
    case 0xC000_0008 => true
    case 0xC000_000D => true
    case 0xC000_0017 => true
    case 0xC000_001D => true
    case 0xC000_0025 => true
    case 0xC000_0026 => true
    case 0xC000_008C => true
    case 0xC000_008D => true
    case 0xC000_008E => true
    case 0xC000_008F => true
    case 0xC000_0090 => true
    case 0xC000_0091 => true
    case 0xC000_0092 => true
    case 0xC000_0093 => true
    case 0xC000_0094 => true
    case 0xC000_0095 => true
    case 0xC000_0096 => true
    case 0xC000_00FD => true
    case 0xC000_0135 => true
    case 0xC000_0138 => true
    case 0xC000_0139 => true
    case 0xC000_0142 => true
    case 0xC000_01B2 => true
    case 0xC000_02B4 => true
    case 0xC000_02B5 => true
    case 0xC000_0374 => true
    case 0xC000_0409 => true
    case 0xC000_0417 => true
    case 0xC000_0516 => true
    case 0xC000_0718 => true
    case _ => false
  }

  predicate Between(codes: set<U32>, lo: int, hi: int) {
    forall c :: c in codes ==> lo <= c < hi
  }

  lemma UnionOfSeparated(a: set<U32>, b: set<U32>, lo: int, mid: int, hi: int)
    requires lo <= mid <= hi
    requires Between(a, lo, mid) && Between(b, mid, hi)
    ensures |a + b| == |a| + |b| && Between(a + b, lo, hi)
  {
    assert a !! b;
  }

  lemma Group1Separated()
    ensures |WhitelistGroup1| == 8 && Between(WhitelistGroup1, 0xC000_0000, 0xC000_008C)
  {
  }

  lemma Group2Separated()
    ensures |WhitelistGroup2| == 8 && Between(WhitelistGroup2, 0xC000_008C, 0xC000_0094)
  {
  }

  lemma Group3Separated()
    ensures |WhitelistGroup3| == 8 && Between(WhitelistGroup3, 0xC000_0094, 0xC000_01B2)
  {
  }

  lemma Group4Separated()
    ensures |WhitelistGroup4| == 8 && Between(WhitelistGroup4, 0xC000_01B2, 0xC000_0800)
  {
  }

  /** The whitelist holds exactly 32 distinct codes. */
  lemma WhitelistSize()
    ensures |WhitelistedCodes| == 32
  {
    Group1Separated();
    Group2Separated();
    Group3Separated();
    Group4Separated();
    UnionOfSeparated(WhitelistGroup1, WhitelistGroup2, 0xC000_0000, 0xC000_008C, 0xC000_0094);
    var a := WhitelistGroup1 + WhitelistGroup2;
    UnionOfSeparated(a, WhitelistGroup3, 0xC000_0000, 0xC000_0094, 0xC000_01B2);
    var b := a + WhitelistGroup3;
    UnionOfSeparated(b, WhitelistGroup4, 0xC000_0000, 0xC000_01B2, 0xC000_0800);
  }

  /**
   * Only error-severity codes (top two bits set) are reported, so
   * success, informational and warning codes such as breakpoints and
   * single steps always pass through.
   */
  lemma OnlyErrorSeverityWhitelisted(code: U32)
    ensures IsWhitelistException(code) ==> code >= 0xC000_0000
    ensures IsWhitelistException(code) ==> code != CPP_EH_EXCEPTION
    ensures !IsWhitelistException(STATUS_BREAKPOINT) && !IsWhitelistException(STATUS_SINGLE_STEP)
  {
  }

  /**
   * `get_module_file_and_base`: the owning image of `address`, present only
   * when the module lookup succeeds and the file-name query returns a
   * non-empty path.
   */
  function ModuleOf(o: Oracles, address: U64): (r: Option<(U64, string)>)
    ensures r.Some? <==> o.moduleHandle(address).Some? && |o.moduleFileName(o.moduleHandle(address).value)| > 0
    ensures r.Some? ==> r.value.0 == o.moduleHandle(address).value
    ensures r.Some? ==> r.value.1 == o.moduleFileName(r.value.0) && |r.value.1| > 0
  {
    match o.moduleHandle(address)
    case None => None
    case Some(base) =>
      var path := o.moduleFileName(base);
      if |path| > 0 then Some((base, path)) else None
  }

  /** `is_ffxiv_address`: the owning image's file name equals the game executable's, ignoring case. */
  function IsGameAddress(o: Oracles, address: U64): (r: bool)
    ensures r <==> ModuleOf(o, address).Some?
                   && EqualsIgnoreCase(FileName(ModuleOf(o, address).value.1), GAME_EXECUTABLE)
  {
    match ModuleOf(o, address)
    case None => false
    case Some((_, path)) => EqualsIgnoreCase(FileName(path), GAME_EXECUTABLE)
  }

  /**
   * Any image whose file is named `ffxiv_dx11.exe` in any letter case, in
   * any directory, is the game; an image with another name is not.
   */
  lemma GameAddressByFileName(o: Oracles, address: U64, dir: string, name: string)
    requires o.moduleHandle(address).Some?
    requires o.moduleFileName(o.moduleHandle(address).value) == dir + ['\\'] + name
    requires forall i :: 0 <= i < |name| ==> !IsSeparator(name[i])
    ensures IsGameAddress(o, address) <==> EqualsIgnoreCase(name, GAME_EXECUTABLE)
  {
    FileNameOfJoin(dir, name);
  }
}

=== FILE: environment.dfy ===
/**
 * The operating-system facilities the interceptor consults, as oracles.
 * Nothing about their behaviour is assumed: every property of the model
 * holds for every choice of these functions.
 */
module Environment {
  import opened Wrappers
  import opened Words

  /** A symbol found by the symbol engine: its name and the offset of the address into it. */
  datatype SymbolInfo = SymbolInfo(name: string, displacement: U64)

  /**
   * The part of the unwinder's frame cursor the interceptor reads: the
   * program counter and return address of the current frame, plus the stack
   * and frame pointers the cursor is seeded with.
   */
  datatype StackFrame = StackFrame(pc: U64, ret: U64, sp: U64, fp: U64)

  datatype Oracles = Oracles(
    /** The base (module handle) of the image containing an address, if any. */
    moduleHandle: U64 -> Option<U64>,
    /** The file path of the image at a base; the empty string when the query fails. */
    moduleFileName: U64 -> string,
    /** The symbol covering an address, if the symbol engine knows one. */
    symbolAt: U64 -> Option<SymbolInfo>,
    /** The 8-byte value stored at an address, or `None` when dereferencing it faults. */
    readQword: U64 -> Option<U64>,
    /**
     * What ReadProcessMemory leaves in a zero-initialised 8-byte buffer for an
     * address, whether or not the call reports success: the stored word, the
     * bytes copied before an unreadable page, or 0 when nothing was copied.
     */
    copyQword: U64 -> U64,
    /** One step of the unwinder to the caller frame, or `None` when it cannot step. */
    stepFrame: StackFrame -> Option<StackFrame>
  )
}

=== FILE: filenames.dfy ===
/**
 * The two string operations the interceptor applies to module paths:
 * `std::filesystem::path::filename()` and the case-insensitive `_wcsicmp`
 * comparison (in the default "C" locale, which folds only ASCII letters).
 */
module FileNames {

  /** A Windows path separator. */
  predicate IsSeparator(c: char) {
    c == '\\' || c == '/'
  }

  /** The last component of `path`: everything after its last separator. */
  function FileName(path: string): (name: string)
    ensures |name| <= |path| && name == path[|path| - |name|..]
    ensures forall i :: 0 <= i < |name| ==> !IsSeparator(name[i])
    ensures |name| < |path| ==> IsSeparator(path[|path| - |name| - 1])
    decreases |path|
  {
    if |path| == 0 || IsSeparator(path[|path| - 1]) then []
    else FileName(path[..|path| - 1]) + [path[|path| - 1]]
  }

  /** The case folding `_wcsicmp` applies to each character. */
  function Fold(c: char): char {
    if 'A' <= c <= 'Z' then (c as int - 'A' as int + 'a' as int) as char else c
  }

  /** `_wcsicmp(a, b) == 0`. */
  function EqualsIgnoreCase(a: string, b: string): (r: bool)
    ensures r <==> |a| == |b| && forall i :: 0 <= i < |a| ==> Fold(a[i]) == Fold(b[i])
    decreases |a|
  {
    if |a| == 0 || |b| == 0 then |a| == |b|
    else Fold(a[0]) == Fold(b[0]) && EqualsIgnoreCase(a[1..], b[1..])
  }

  /** The component after the last separator is the file name whatever directories precede it. */
  lemma {:induction false} FileNameOfJoin(dir: string, name: string)
    requires forall i :: 0 <= i < |name| ==> !IsSeparator(name[i])
    ensures FileName(dir + ['\\'] + name) == name
    decreases |name|
  {
    var p := dir + ['\\'] + name;
    if |name| == 0 {
      assert p[|p| - 1] == '\\';
    } else {
      var init := name[..|name| - 1];
      assert p[..|p| - 1] == dir + ['\\'] + init;
      FileNameOfJoin(dir, init);
      assert name == init + [name[|name| - 1]];
    }
  }
}

=== FILE: handler.dfy ===
/**
 * `exception_handler`: the vectored exception handler itself. It decides
 * whether a fault is reported, produces the log, the dump and the alert
 * for those that are, and hands every fault back to the OS's search for a
 * handler.
 */
module Handler {
  import opened Wrappers
  import opened Words
  import opened Numerals
  import opened Environment
  import opened Classifier
  import opened Resolver
  import opened Report

  /** The disposition value meaning "keep searching for a handler". */
  const EXCEPTION_CONTINUE_SEARCH: int := 0

  /** What the OS hands the handler: the exception code and the faulting thread's registers. */
  datatype FaultEvent = FaultEvent(code: U32, context: Context)

  /**
   * The header of the crash log: where the fault happened (the rendered
   * instruction address), its code, and the caller-supplied time stamp.
   */
  datatype LogHeader = LogHeader(location: string, code: U32, timestamp: string)
  {
    /** The three header lines, in the order they are written. */
    function Lines(): seq<string> {
      [ "Unhandled native exception occurred at " + location,
        "Code: " + Hex(code),
        "Time: " + timestamp ]
    }
  }

  /**
   * The externally visible actions of one handler run, in the order they
   * happen. The log is written in two parts: the header lines, then the
   * report.
   */
  datatype Effect =
    | HeaderLogged(header: LogHeader)
    | SymbolsRefreshed
    | ReportLogged(report: ExceptionReport)
    | DumpWritten(code: U32, context: Context)
    | MessageOpenSet
    | AlertShown
    | MessageOpenCleared

  /**
   * How a run ends: it returns a disposition to the OS, spins forever
   * behind an open alert, or faults while reading the stack for the report.
   */
  datatype Ending = Returned(disposition: int) | SpinsForever | FaultsWhileReporting

  /** One run of the handler: its ending, its effects, and the message-open flag afterwards. */
  datatype HandlerRun = HandlerRun(ending: Ending, effects: seq<Effect>, messageOpen: bool)

  /** The log header the handler writes for a fault. */
  function HeaderFor(o: Oracles, ev: FaultEvent, timestamp: string): LogHeader {
    LogHeader(ToAddressString(o, ev.context.rip, false).text, ev.code, timestamp)
  }

  /**
   * The header locates the fault: the first line names the faulting
   * instruction (its address part first, module-relative when the owning
   * image is known), the second carries upper-case hex that denotes the
   * exception code, and the third the time stamp.
   */
  lemma HeaderLocatesFault(o: Oracles, ev: FaultEvent, timestamp: string)
    ensures var lines := HeaderFor(o, ev, timestamp).Lines();
      var at := "Unhandled native exception occurred at ";
      && |lines| == 3
      && at + AddressText(ev.context.rip, ModuleOf(o, ev.context.rip)) <= lines[0]
      && "Code: " <= lines[1] && Canonical(lines[1][6..], 16) && FromDigits(lines[1][6..], 16) == ev.code
      && lines[2] == "Time: " + timestamp
  {
    var lines := HeaderFor(o, ev, timestamp).Lines();
    var location := ToAddressString(o, ev.context.rip, false).text;
    assert lines[0] == "Unhandled native exception occurred at " + location;
    assert lines[1][6..] == Hex(ev.code);
    HexRoundTrip(ev.code, "");
  }

  /** The fault is reported: a whitelisted code raised by code in the game executable. */
  predicate Accepted(o: Oracles, ev: FaultEvent) {
    IsWhitelistException(ev.code) && IsGameAddress(o, ev.context.rip)
  }

  /**
   * The reporting path of the handler, taken for an accepted fault: write
   * the log header, refresh the symbol engine's module list, write the
   * report, write the dump, and show the alert with the message-open flag
   * set around it. A fault while reading the stack ends the run inside the
   * report.
   */
  function ReportingRun(header: LogHeader, report: ExceptionReport, ev: FaultEvent): (r: HandlerRun)
    ensures !r.messageOpen
    ensures r.ending == Returned(EXCEPTION_CONTINUE_SEARCH) <==> !report.Faulted()
    ensures r.ending.Returned? || r.ending == FaultsWhileReporting
    // the header goes out before the refresh, the report after it, and both before anything can fault
    ensures |r.effects| >= 3 && r.effects[0] == HeaderLogged(header)
      && r.effects[1] == SymbolsRefreshed && r.effects[2] == ReportLogged(report)
    ensures forall i :: 0 <= i < |r.effects| && r.effects[i] == AlertShown ==>
      0 < i < |r.effects| - 1 && r.effects[i - 1] == MessageOpenSet && r.effects[i + 1] == MessageOpenCleared
  {
    var logged := [HeaderLogged(header), SymbolsRefreshed, ReportLogged(report)];
    if report.Faulted() then
      HandlerRun(FaultsWhileReporting, logged, false)
    else
      HandlerRun(
        Returned(EXCEPTION_CONTINUE_SEARCH),
        logged + [DumpWritten(ev.code, ev.context), MessageOpenSet, AlertShown, MessageOpenCleared],
        false)
  }

  /** `exception_handler`, entered with the given state of the message-open flag. */
  function ExceptionHandler(o: Oracles, messageOpen: bool, ev: FaultEvent, timestamp: string, fuel: nat): (r: HandlerRun)
    // while an alert is open every other fault stalls, doing nothing
    ensures messageOpen ==> r.ending == SpinsForever && r.effects == [] && r.messageOpen
    // every run that returns hands the fault on, and leaves the flag clear
    ensures r.ending.Returned? ==> r.ending.disposition == EXCEPTION_CONTINUE_SEARCH && !r.messageOpen
    // nothing at all happens for a fault that fails classification
    ensures r.effects != [] ==> Accepted(o, ev)
    ensures !messageOpen && !Accepted(o, ev) ==>
      r == HandlerRun(Returned(EXCEPTION_CONTINUE_SEARCH), [], false)
    // and every accepted fault gets its crash log, header and report
    ensures !messageOpen && Accepted(o, ev) ==>
      |r.effects| >= 3 && r.effects[0].HeaderLogged? && r.effects[2].ReportLogged?
    // the flag is set just before the alert and cleared just after it
    ensures forall i :: 0 <= i < |r.effects| && r.effects[i] == AlertShown ==>
      0 < i < |r.effects| - 1 && r.effects[i - 1] == MessageOpenSet && r.effects[i + 1] == MessageOpenCleared
  {
    if messageOpen then HandlerRun(SpinsForever, [], true)
    else if !IsWhitelistException(ev.code) then HandlerRun(Returned(EXCEPTION_CONTINUE_SEARCH), [], false)
    else if !IsGameAddress(o, ev.context.rip) then HandlerRun(Returned(EXCEPTION_CONTINUE_SEARCH), [], false)
    else ReportingRun(HeaderFor(o, ev, timestamp), ExceptionInfo(o, ev.context, fuel), ev)
  }

  /**
   * An accepted fault with a readable stack is reported in full: the log
   * header, the symbol refresh, the report, then the dump, then the alert,
   * and the handler then returns "continue search".
   */
  lemma AcceptedFaultIsReported(o: Oracles, ev: FaultEvent, timestamp: string, fuel: nat)
    requires Accepted(o, ev)
    requires !ExceptionInfo(o, ev.context, fuel).Faulted()
    ensures var r := ExceptionHandler(o, false, ev, timestamp, fuel);
      && r.ending == Returned(EXCEPTION_CONTINUE_SEARCH)
      && r.effects == [
           HeaderLogged(HeaderFor(o, ev, timestamp)),
           SymbolsRefreshed,
           ReportLogged(ExceptionInfo(o, ev.context, fuel)),
           DumpWritten(ev.code, ev.context),
           MessageOpenSet, AlertShown, MessageOpenCleared]
  {
  }

  /** An access violation raised in the game executable produces the crash log. */
  lemma AccessViolationInGameIsReported(o: Oracles, context: Context, timestamp: string, fuel: nat)
    requires IsGameAddress(o, context.rip)
    ensures var r := ExceptionHandler(o, false, FaultEvent(STATUS_ACCESS_VIOLATION, context), timestamp, fuel);
      |r.effects| >= 3 && r.effects[0].HeaderLogged? && r.effects[2].ReportLogged?
  {
    assert IsWhitelistException(STATUS_ACCESS_VIOLATION);
  }

  /** A breakpoint is never reported, wherever it is raised: the fault passes straight on. */
  lemma BreakpointPassesThrough(o: Oracles, context: Context, timestamp: string, fuel: nat)
    ensures ExceptionHandler(o, false, FaultEvent(STATUS_BREAKPOINT, context), timestamp, fuel)
      == HandlerRun(Returned(EXCEPTION_CONTINUE_SEARCH), [], false)
  {
    assert !IsWhitelistException(STATUS_BREAKPOINT);
  }

  /** The message-open flag after the given effects, starting from `flag`. */
  function FlagAfter(flag: bool, effects: seq<Effect>): bool
    decreases |effects|
  {
    if effects == [] then flag
    else
      var next := match effects[0]
        case MessageOpenSet => true
        case MessageOpenCleared => false
        case _ => flag;
      FlagAfter(next, effects[1..])
  }

  /** Around a set-alert-clear sequence the flag is up exactly while the alert is shown. */
  lemma FlagUpDuringAlert(e: seq<Effect>)
    requires |e| == 7 && e[4] == MessageOpenSet && e[5] == AlertShown && e[6] == MessageOpenCleared
    requires forall i :: 0 <= i < 4 ==> !e[i].MessageOpenSet? && !e[i].MessageOpenCleared?
    ensures FlagAfter(false, e[..6]) && !FlagAfter(false, e)
  {
    assert FlagAfter(false, e[..6]) == FlagAfter(false, e[1..6]) == FlagAfter(false, e[2..6])
      == FlagAfter(false, e[3..6]) == FlagAfter(false, e[4..6]);
    assert FlagAfter(false, e[4..6]) == FlagAfter(true, e[5..6]) == FlagAfter(true, e[6..6]);
    assert FlagAfter(false, e) == FlagAfter(false, e[1..]) == FlagAfter(false, e[2..])
      == FlagAfter(false, e[3..]) == FlagAfter(false, e[4..]);
    assert FlagAfter(false, e[4..]) == FlagAfter(true, e[5..]) == FlagAfter(true, e[6..]) == FlagAfter(false, e[7..]);
  }

  /** The effects of a reported fault fit the pattern `FlagUpDuringAlert` expects. */
  lemma ReportedRunBracketsAlert(o: Oracles, ev: FaultEvent, timestamp: string, fuel: nat, e: seq<Effect>)
    requires Accepted(o, ev) && !ExceptionInfo(o, ev.context, fuel).Faulted()
    requires e == ExceptionHandler(o, false, ev, timestamp, fuel).effects
    ensures |e| == 7 && e[4] == MessageOpenSet && e[5] == AlertShown && e[6] == MessageOpenCleared
    ensures forall i :: 0 <= i < 4 ==> !e[i].MessageOpenSet? && !e[i].MessageOpenCleared?
  {
    AcceptedFaultIsReported(o, ev, timestamp, fuel);
  }

  /**
   * The flag serialises faults that arrive while an alert is on screen: a
   * fault on another thread that enters the handler while the flag is set
   * spins, and the spin never re-reads the flag, so that thread stays
   * stalled even after the alert is dismissed. A fault that enters only
   * after the flag is cleared goes through its own classification as if it
   * were the first.
   */
  lemma AlertSerialisesConcurrentFaults(o: Oracles, first: FaultEvent, second: FaultEvent, timestamp: string, fuel: nat,
                                         e: seq<Effect>)
    requires Accepted(o, first) && !ExceptionInfo(o, first.context, fuel).Faulted()
    requires e == ExceptionHandler(o, false, first, timestamp, fuel).effects
    ensures |e| == 7 && e[5] == AlertShown
    ensures ExceptionHandler(o, FlagAfter(false, e[..6]), second, timestamp, fuel).ending == SpinsForever
    ensures ExceptionHandler(o, FlagAfter(false, e), second, timestamp, fuel)
      == ExceptionHandler(o, false, second, timestamp, fuel)
  {
    ReportedRunBracketsAlert(o, first, timestamp, fuel, e);
    FlagUpDuringAlert(e);
  }
}

=== FILE: lifecycle.dfy ===
/**
 * `veh::add_handler` and `veh::remove_handler`: installing and removing
 * the vectored exception handler, guarded by the single stored handle.
 */
module Lifecycle {
  import opened Wrappers
  import opened Environment
  import opened Handler

  /** A non-null handle returned by the OS for a registered handler. */
  type Handle = h: nat | h > 0 witness 1

  /**
   * The process state the two operations touch: the stored handle, the
   * OS's chain of handlers this component has registered, and how often the
   * symbol engine has been initialised.
   */
  datatype Process = Process(held: Option<Handle>, chain: seq<Handle>, symbolInits: nat)

  /** Before anything is installed. */
  const Initial: Process := Process(None, [], 0)

  /** The stored handle is exactly the one registered interceptor; none is stored, none is registered. */
  predicate Valid(p: Process) {
    && (p.held.None? ==> p.chain == [])
    && (p.held.Some? ==> p.chain == [p.held.value])
  }

  /** Faults are delivered to the interceptor. */
  predicate Intercepts(p: Process) {
    |p.chain| > 0
  }

  /**
   * `veh::add_handler`. `registration` is what registering with the OS
   * yields: a handle, or `None` when registration fails. The symbol engine
   * is initialised whenever registration is attempted, whatever its outcome.
   */
  function AddHandler(p: Process, registration: Option<Handle>): (r: (Process, bool))
    ensures p.held.Some? ==> r == (p, false)
    ensures p.held.None? ==> r.1 == registration.Some? && r.0.held == registration
    ensures p.held.None? ==> r.0.symbolInits == p.symbolInits + 1
    ensures p.held.None? ==> |r.0.chain| == |p.chain| + (if registration.Some? then 1 else 0)
    ensures Valid(p) ==> Valid(r.0)
  {
    if p.held.Some? then (p, false)
    else
      var chain := if registration.Some? then p.chain + [registration.value] else p.chain;
      (Process(registration, chain, p.symbolInits + 1), registration.Some?)
  }

  /**
   * `veh::remove_handler`. `unregistered` is whether the OS reports that
   * the handler was removed; on failure the handle is kept.
   */
  function RemoveHandler(p: Process, unregistered: bool): (r: (Process, bool))
    ensures r.1 <==> p.held.Some? && unregistered
    ensures !r.1 ==> r.0 == p
    ensures r.1 ==> r.0.held.None? && r.0.symbolInits == p.symbolInits
    ensures r.1 ==> forall h :: h in r.0.chain ==> h in p.chain && h != p.held.value
    ensures Valid(p) ==> Valid(r.0)
  {
    if p.held.Some? && unregistered then
      var h := p.held.value;
      (Process(None, RemoveAll(p.chain, h), p.symbolInits), true)
    else (p, false)
  }

  /** `chain` without the entries equal to `h`. */
  function RemoveAll(chain: seq<Handle>, h: Handle): (r: seq<Handle>)
    ensures forall x :: x in r <==> x in chain && x != h
    ensures |r| <= |chain|
  {
    if chain == [] then []
    else (if chain[0] == h then [] else [chain[0]]) + RemoveAll(chain[1..], h)
  }

  /**
   * Installing twice succeeds once: the second call reports failure and
   * leaves exactly the one interceptor registered by the first.
   */
  lemma InstallTwice(h: Handle, second: Option<Handle>)
    ensures var (p1, ok1) := AddHandler(Initial, Some(h));
      var (p2, ok2) := AddHandler(p1, second);
      ok1 && !ok2 && p2 == p1 && p2.chain == [h]
  {
  }

  /** Removing before anything was installed reports failure and changes nothing. */
  lemma RemoveBeforeInstall(unregistered: bool)
    ensures RemoveHandler(Initial, unregistered) == (Initial, false)
  {
  }

  /**
   * Install then remove leaves no interceptor: a later fault is not
   * delivered to the handler, and installing again is possible.
   */
  lemma InstallThenRemove(h: Handle, again: Handle, o: Oracles, ev: FaultEvent, timestamp: string, fuel: nat)
    ensures var (p1, _) := AddHandler(Initial, Some(h));
      var (p2, ok) := RemoveHandler(p1, true);
      && ok && p2.held.None? && !Intercepts(p2)
      && DeliverFault(p2, o, false, ev, timestamp, fuel).None?
      && AddHandler(p2, Some(again)).1
  {
  }

  /** A failed removal keeps the handle, so the handler stays installed and can be removed later. */
  lemma FailedRemoveKeepsHandle(p: Process)
    requires Valid(p) && p.held.Some?
    ensures RemoveHandler(p, false) == (p, false) && Intercepts(RemoveHandler(p, false).0)
    ensures RemoveHandler(p, true).1
  {
  }

  /** A fault reaching the process: the handler runs only while it is installed. */
  function DeliverFault(p: Process, o: Oracles, messageOpen: bool, ev: FaultEvent, timestamp: string, fuel: nat): Option<HandlerRun> {
    if Intercepts(p) then Some(ExceptionHandler(o, messageOpen, ev, timestamp, fuel)) else None
  }
}

=== FILE: numerals.dfy ===
/**
 * Digit-string rendering of naturals as done by `std::format`: `{:X}` is
 * upper-case hexadecimal, `{}` on an integer is decimal, neither pads nor
 * prefixes, and zero renders as "0". `FromDigits` is the inverse used to
 * state what a rendered number means.
 */
module Numerals {

  /** Value of a digit character '0'-'9' or 'A'-'F'; 16 for any other character. */
  function DigitValue(c: char): nat {
    if '0' <= c <= '9' then c as nat - '0' as nat
    else if 'A' <= c <= 'F' then c as nat - 'A' as nat + 10
    else 16
  }

  /** The upper-case digit character of `d`. */
  function DigitChar(d: nat): (c: char)
    requires d < 16
    ensures DigitValue(c) == d
  {
    if d < 10 then ('0' as nat + d) as char else ('A' as nat + d - 10) as char
  }

  predicate IsDigit(c: char, base: nat) {
    DigitValue(c) < base
  }

  /** The two radixes the formatter is used with: `{}` and `{:X}`. */
  predicate IsBase(base: nat) {
    base == 10 || base == 16
  }

  /** A digit string with no superfluous leading zero: the shape `std::format` produces. */
  predicate Canonical(s: string, base: nat) {
    && |s| > 0
    && (forall i :: 0 <= i < |s| ==> IsDigit(s[i], base))
    && (s[0] == '0' ==> |s| == 1)
  }

  /** The number a digit string denotes (most significant digit first). */
  function FromDigits(s: string, base: nat): nat
    decreases |s|
  {
    if |s| == 0 then 0
    else FromDigits(s[..|s| - 1], base) * base + DigitValue(s[|s| - 1])
  }

  /** `n` written in `base` with upper-case digits. */
  function ToDigits(n: nat, base: nat): (s: string)
    requires IsBase(base)
    ensures Canonical(s, base)
    decreases n
  {
    if n < base then [DigitChar(n)]
    else ToDigits(n / base, base) + [DigitChar(n % base)]
  }

  /** `{:X}`: upper-case hexadecimal. */
  function Hex(n: nat): (s: string)
    ensures Canonical(s, 16)
  {
    ToDigits(n, 16)
  }

  /** `{}` on an integer: decimal. */
  function Dec(n: nat): (s: string)
    ensures Canonical(s, 10)
  {
    ToDigits(n, 10)
  }

  lemma DivModUnique(m: nat, base: nat, d: nat)
    requires IsBase(base) && d < base
    ensures (m * base + d) / base == m
    ensures (m * base + d) % base == d
  {
    if base == 10 {
    } else {
    }
  }

  lemma DivDecreases(n: nat, base: nat)
    requires 2 <= base <= n
    ensures 0 < n / base < n
    ensures n == (n / base) * base + n % base
  {
  }

  /** Rendering is injective: the rendered digits denote the number rendered. */
  lemma {:induction false} FromToDigits(n: nat, base: nat)
    requires IsBase(base)
    ensures FromDigits(ToDigits(n, base), base) == n
    decreases n
  {
    var s := ToDigits(n, base);
    if n < base {
      assert s[..0] == [];
    } else {
      var q, r := n / base, n % base;
      DivDecreases(n, base);
      var p := ToDigits(q, base);
      FromToDigits(q, base);
      assert s == p + [DigitChar(r)];
      assert s[..|s| - 1] == p;
      assert FromDigits(s, base) == FromDigits(p, base) * base + r;
    }
  }

  lemma {:induction false} LeadingDigitPositive(s: string, base: nat)
    requires IsBase(base) && |s| > 0
    requires forall i :: 0 <= i < |s| ==> IsDigit(s[i], base)
    requires DigitValue(s[0]) > 0
    ensures FromDigits(s, base) > 0
    decreases |s|
  {
    if |s| > 1 {
      var p := s[..|s| - 1];
      assert p[0] == s[0];
      LeadingDigitPositive(p, base);
    } else {
      assert s[..0] == [];
    }
  }

  /** Every canonical digit string is the rendering of the number it denotes. */
  lemma {:induction false} ToFromDigits(s: string, base: nat)
    requires IsBase(base) && Canonical(s, base)
    ensures ToDigits(FromDigits(s, base), base) == s
    decreases |s|
  {
    var p, c := s[..|s| - 1], s[|s| - 1];
    var d := DigitValue(c);
    assert DigitChar(d) == c;
    if |s| == 1 {
      assert p == [];
    } else {
      assert p[0] == s[0];
      assert s[0] != '0';
      LeadingDigitPositive(p, base);
      ToFromDigits(p, base);
      var m := FromDigits(p, base);
      DivModUnique(m, base, d);
      assert s == p + [c];
    }
  }

  /** Hexadecimal rendering is a bijection between naturals and canonical hex strings. */
  lemma HexRoundTrip(n: nat, s: string)
    ensures FromDigits(Hex(n), 16) == n
    ensures Canonical(s, 16) ==> Hex(FromDigits(s, 16)) == s
  {
    FromToDigits(n, 16);
    if Canonical(s, 16) {
      ToFromDigits(s, 16);
    }
  }

  /** Decimal rendering is a bijection between naturals and canonical decimal strings. */
  lemma DecRoundTrip(n: nat, s: string)
    ensures FromDigits(Dec(n), 10) == n
    ensures Canonical(s, 10) ==> Dec(FromDigits(s, 10)) == s
  {
    FromToDigits(n, 10);
    if Canonical(s, 10) {
      ToFromDigits(s, 10);
    }
  }
}

=== FILE: report.dfy ===
/**
 * `print_exception_info`: the Call Stack, Registers and Stack sections of
 * the crash log. The log is modelled as the sequence of lines its text
 * splits into.
 */
module Report {
  import opened Wrappers
  import opened Words
  import opened Numerals
  import opened Environment
  import opened Resolver

  /** The general-purpose registers of the captured thread context. */
  datatype Context = Context(
    rax: U64, rbx: U64, rcx: U64, rdx: U64,
    r8: U64, r9: U64, r10: U64, r11: U64, r12: U64, r13: U64, r14: U64, r15: U64,
    rsi: U64, rdi: U64, rbp: U64, rsp: U64, rip: U64)

  /** One entry of the Call Stack section: its ordinal and the frame's program counter. */
  datatype FrameRecord = FrameRecord(index: nat, pc: U64)

  /** The Stack section's entries: all written, or cut short by a fault on an unreadable slot. */
  datatype StackOutcome = Completed(lines: seq<string>) | Faulted(lines: seq<string>)

  /** The order in which the Registers section lists the registers. */
  const RegisterNames: seq<string> := [
    "RAX", "RBX", "RCX", "RDX", "R8", "R9", "R10", "R11",
    "R12", "R13", "R14", "R15", "RSI", "RDI", "RBP", "RSP", "RIP"]

  /** The register values in the order of `RegisterNames`. */
  function RegisterValues(c: Context): seq<U64> {
    [c.rax, c.rbx, c.rcx, c.rdx, c.r8, c.r9, c.r10, c.r11,
     c.r12, c.r13, c.r14, c.r15, c.rsi, c.rdi, c.rbp, c.rsp, c.rip]
  }

  /** The register a name denotes, independently of any listing order. */
  function RegisterNamed(c: Context, name: string): Option<U64> {
    match name
    case "RAX" => Some(c.rax)
    case "RBX" => Some(c.rbx)
    case "RCX" => Some(c.rcx)
    case "RDX" => Some(c.rdx)
    case "RSI" => Some(c.rsi)
    case "RDI" => Some(c.rdi)
    case "RBP" => Some(c.rbp)
    case "RSP" => Some(c.rsp)
    case "RIP" => Some(c.rip)
    case "R8" => Some(c.r8)
    case "R9" => Some(c.r9)
    case "R10" => Some(c.r10)
    case "R11" => Some(c.r11)
    case "R12" => Some(c.r12)
    case "R13" => Some(c.r13)
    case "R14" => Some(c.r14)
    case "R15" => Some(c.r15)
    case _ => None
  }

  /** Each line of the Registers section shows the register its tag names. */
  lemma RegisterOrderPairsNames(c: Context, i: int)
    requires 0 <= i < |RegisterNames|
    ensures RegisterNamed(c, RegisterNames[i]) == Some(RegisterValues(c)[i])
  {
  }

  /** A titled, braced section: a blank line, the title, `{`, the entries, `}`. */
  function Section(title: string, entries: seq<string>): seq<string> {
    ["", title, "{"] + entries + ["}"]
  }

  lemma SectionLayout(title: string, entries: seq<string>)
    ensures var s := Section(title, entries);
      && |s| == |entries| + 4 && s[..3] == ["", title, "{"]
      && s[3..3 + |entries|] == entries && s[3 + |entries|] == "}"
  {
    var s := Section(title, entries);
    assert s[..3] == ["", title, "{"];
    assert s[3..3 + |entries|] == entries;
  }

  // ---------------------------------------------------------------- call stack

  /** The cursor the walk starts from: the faulting RIP, RSP and RBP. */
  function InitialFrame(c: Context): StackFrame {
    StackFrame(c.rip, 0, c.rsp, c.rbp)
  }

  /** The loop condition of the walk: a non-zero return address that differs from the PC. */
  predicate ContinuesWalk(f: StackFrame) {
    f.ret != 0 && f.pc != f.ret
  }

  /**
   * The program counters recorded after the initial frame: one per
   * successful step, stopping when a step fails or a stepped-to frame fails
   * the loop condition, and after at most `fuel` steps.
   */
  function Unwind(step: StackFrame -> Option<StackFrame>, f: StackFrame, fuel: nat): (pcs: seq<U64>)
    ensures |pcs| <= fuel
    decreases fuel
  {
    if fuel == 0 then []
    else match step(f)
      case None => []
      case Some(g) => [g.pc] + (if ContinuesWalk(g) then Unwind(step, g, fuel - 1) else [])
  }

  /** The cursor after `k` successive steps, if every one succeeds. */
  function StepN(step: StackFrame -> Option<StackFrame>, f: StackFrame, k: nat): Option<StackFrame>
    decreases k
  {
    if k == 0 then Some(f)
    else match StepN(step, f, k - 1)
      case None => None
      case Some(g) => step(g)
  }

  lemma {:induction false} StepNShift(step: StackFrame -> Option<StackFrame>, f: StackFrame, g: StackFrame, k: nat)
    requires step(f) == Some(g)
    ensures StepN(step, f, k + 1) == StepN(step, g, k)
    decreases k
  {
    if k > 0 {
      StepNShift(step, f, g, k - 1);
    }
  }

  /** Frame `k` of the walk (k successful steps from `f`) exists and has program counter `pc`. */
  predicate ReachedWith(step: StackFrame -> Option<StackFrame>, f: StackFrame, k: nat, pc: U64) {
    StepN(step, f, k).Some? && StepN(step, f, k).value.pc == pc
  }

  /** Frame `k` of the walk exists and satisfies the loop condition. */
  predicate ContinuesAt(step: StackFrame -> Option<StackFrame>, f: StackFrame, k: nat) {
    StepN(step, f, k).Some? && ContinuesWalk(StepN(step, f, k).value)
  }

  /**
   * The walk, characterised frame by frame: the j-th recorded PC is the PC
   * after j successful steps, every recorded frame but the last satisfied
   * the loop condition, and a walk shorter than its fuel ended because the
   * next step failed or the last recorded frame failed the loop condition.
   */
  lemma {:induction false} UnwindFollowsSteps(step: StackFrame -> Option<StackFrame>, f: StackFrame, fuel: nat)
    ensures var pcs := Unwind(step, f, fuel);
      forall i :: 0 <= i < |pcs| ==> ReachedWith(step, f, i + 1, pcs[i])
    ensures var pcs := Unwind(step, f, fuel);
      forall j :: 1 <= j < |pcs| ==> ContinuesAt(step, f, j)
    ensures var pcs := Unwind(step, f, fuel);
      |pcs| < fuel ==>
        StepN(step, f, |pcs| + 1).None? || (|pcs| > 0 && !ContinuesAt(step, f, |pcs|))
    decreases fuel
  {
    if fuel > 0 && step(f).Some? {
      var g := step(f).value;
      StepNShift(step, f, g, 0);
      if ContinuesWalk(g) {
        var rest := Unwind(step, g, fuel - 1);
        UnwindFollowsSteps(step, g, fuel - 1);
        var pcs := Unwind(step, f, fuel);
        assert pcs == [g.pc] + rest;
        forall j | 1 <= j <= |rest| + 2
          ensures StepN(step, f, j) == StepN(step, g, j - 1)
        {
          StepNShift(step, f, g, j - 1);
        }
        forall i | 1 <= i < |pcs|
          ensures ReachedWith(step, f, i + 1, pcs[i])
        {
          assert pcs[i] == rest[i - 1];
          assert ReachedWith(step, g, i, rest[i - 1]);
        }
        forall j | 2 <= j < |pcs|
          ensures ContinuesAt(step, f, j)
        {
          assert ContinuesAt(step, g, j - 1);
        }
      }
    }
  }

  /** A frame whose return address is its own PC ends the walk right after it is recorded. */
  lemma SelfLoopStops(step: StackFrame -> Option<StackFrame>, f: StackFrame, g: StackFrame, fuel: nat)
    requires fuel > 0 && step(f) == Some(g) && g.pc == g.ret
    ensures Unwind(step, f, fuel) == [g.pc]
  {
  }

  /**
   * Only a self-loop is detected: two frames that step to each other keep
   * the walk going until the fuel runs out, however large it is.
   */
  lemma {:induction false} TwoFrameCycleExhaustsFuel(step: StackFrame -> Option<StackFrame>, a: StackFrame, b: StackFrame, fuel: nat)
    requires step(a) == Some(b) && step(b) == Some(a)
    requires ContinuesWalk(a) && ContinuesWalk(b)
    ensures |Unwind(step, a, fuel)| == fuel
    ensures |Unwind(step, b, fuel)| == fuel
    decreases fuel
  {
    if fuel > 0 {
      TwoFrameCycleExhaustsFuel(step, a, b, fuel - 1);
    }
  }

  /** The frame records of the Call Stack section: the faulting RIP as frame 0, then the walk. */
  function CallStack(step: StackFrame -> Option<StackFrame>, c: Context, fuel: nat): (frames: seq<FrameRecord>)
    ensures |frames| >= 1 && frames[0] == FrameRecord(0, c.rip)
    ensures forall i :: 0 <= i < |frames| ==> frames[i].index == i
    ensures |frames| <= fuel + 1
    // frames 1.. are the unwound PCs, one per successful step
    ensures |frames| == |Unwind(step, InitialFrame(c), fuel)| + 1
    ensures forall i :: 1 <= i < |frames| ==> ReachedWith(step, InitialFrame(c), i, frames[i].pc)
  {
    var pcs := Unwind(step, InitialFrame(c), fuel);
    UnwindFollowsSteps(step, InitialFrame(c), fuel);
    seq(|pcs| + 1, i requires 0 <= i <= |pcs| => FrameRecord(i, if i == 0 then c.rip else pcs[i - 1]))
  }

  /**
   * The walk as the source's do-while loop runs it: record frame 0, then
   * step, record, and test the loop condition, with the fuel as the only
   * bound the model adds.
   */
  method WalkStack(step: StackFrame -> Option<StackFrame>, c: Context, fuel: nat) returns (frames: seq<FrameRecord>)
    ensures frames == CallStack(step, c, fuel)
  {
    var sf := InitialFrame(c);
    frames := [FrameRecord(0, c.rip)];
    var remaining: nat := fuel;
    var walking := true;
    ghost var pcs := Unwind(step, sf, fuel);
    ghost var recorded: seq<U64> := [];
    while walking && remaining > 0
      invariant remaining <= fuel
      invariant |frames| == |recorded| + 1 && frames[0] == FrameRecord(0, c.rip)
      invariant forall i :: 1 <= i < |frames| ==> frames[i] == FrameRecord(i, recorded[i - 1])
      invariant recorded + (if walking then Unwind(step, sf, remaining) else []) == pcs
      decreases remaining + (if walking then 1 else 0)
    {
      match step(sf)
      case None =>
        assert Unwind(step, sf, remaining) == [];
        walking := false;
      case Some(g) =>
        var tail := if ContinuesWalk(g) then Unwind(step, g, remaining - 1) else [];
        assert Unwind(step, sf, remaining) == [g.pc] + tail;
        assert recorded + ([g.pc] + tail) == (recorded + [g.pc]) + tail;
        sf := g;
        frames := frames + [FrameRecord(|frames|, sf.pc)];
        recorded := recorded + [sf.pc];
        remaining := remaining - 1;
        walking := ContinuesWalk(sf);
    }
    assert recorded == pcs;
  }

  /** One line of the Call Stack section: `[index]`, a tab, the PC rendered without dereferencing. */
  function FrameLine(o: Oracles, fr: FrameRecord): string {
    "  [" + Dec(fr.index) + "]\t" + ToAddressString(o, fr.pc, false).text
  }

  /**
   * A Call Stack line reads back: between `  [` and `]` followed by a tab
   * stand canonical decimal digits denoting the frame's ordinal, and after
   * them the frame's PC rendered without dereferencing.
   */
  lemma FrameLineShowsFrame(o: Oracles, fr: FrameRecord)
    ensures var line := FrameLine(o, fr);
      var pcText := ToAddressString(o, fr.pc, false).text;
      var close := |line| - |pcText| - 2;
      && 3 < close
      && line[..3] == "  [" && line[close..close + 2] == "]\t" && line[close + 2..] == pcText
      && Canonical(line[3..close], 10) && FromDigits(line[3..close], 10) == fr.index
  {
    var line := FrameLine(o, fr);
    var d := Dec(fr.index);
    var pcText := ToAddressString(o, fr.pc, false).text;
    assert line == "  [" + d + "]\t" + pcText;
    assert line[3..3 + |d|] == d;
    DecRoundTrip(fr.index, "");
  }

  /** The entries of the Call Stack section, one per frame record. */
  function FrameLines(o: Oracles, frames: seq<FrameRecord>): seq<string> {
    seq(|frames|, i requires 0 <= i < |frames| => FrameLine(o, frames[i]))
  }

  // ---------------------------------------------------------------- registers

  /** One line of the Registers section: the name, a colon, a tab, the value rendered with dereferencing. */
  function RegisterLine(o: Oracles, name: string, value: U64): string {
    "  " + name + ":\t" + ToAddressString(o, value, true).text
  }

  /** The entries of the Registers section, in the order of `RegisterNames`. */
  function RegisterLines(o: Oracles, c: Context): seq<string> {
    var vs := RegisterValues(c);
    seq(|RegisterNames|, i requires 0 <= i < |RegisterNames| => RegisterLine(o, RegisterNames[i], vs[i]))
  }

  // ---------------------------------------------------------------- stack

  /** The number of 8-byte slots the Stack section shows. */
  const STACK_SLOTS: nat := 16

  /** The tag of slot `k`: its byte offset from RSP in hexadecimal. */
  function SlotLabel(k: nat): string {
    "  [RSP+" + Hex(8 * k) + "]\t"
  }

  /** The address of slot `k`: RSP plus 8k (no wrap-around is possible in the user-mode range). */
  function SlotAddress(rsp: U64, k: nat): U64
    requires InUserRange(rsp) && k < STACK_SLOTS
  {
    rsp + 8 * k
  }

  /** One line of the Stack section: the slot's label, then its value rendered with dereferencing. */
  function SlotLine(o: Oracles, k: nat, value: U64): string {
    SlotLabel(k) + ToAddressString(o, value, true).text
  }

  /** Slot `k` is readable and line `line` shows its value. */
  predicate ShowsSlot(o: Oracles, rsp: U64, k: nat, line: string)
    requires InUserRange(rsp) && k < STACK_SLOTS
  {
    o.readQword(SlotAddress(rsp, k)).Some? && line == SlotLine(o, k, o.readQword(SlotAddress(rsp, k)).value)
  }

  /** How many slots from `from` on can be read before the first unreadable one. */
  function ReadableRun(o: Oracles, rsp: U64, from: nat): (n: nat)
    requires InUserRange(rsp) && from <= STACK_SLOTS
    ensures from + n <= STACK_SLOTS
    ensures forall k :: from <= k < from + n ==> o.readQword(SlotAddress(rsp, k)).Some?
    ensures from + n < STACK_SLOTS ==> o.readQword(SlotAddress(rsp, from + n)).None?
    decreases STACK_SLOTS - from
  {
    if from == STACK_SLOTS || o.readQword(SlotAddress(rsp, from)).None? then 0
    else 1 + ReadableRun(o, rsp, from + 1)
  }

  /**
   * The entries of the Stack section. Each slot is read by a raw
   * dereference, so the first unreadable slot faults and ends the report
   * there; otherwise all sixteen slots are shown.
   */
  function StackSlots(o: Oracles, rsp: U64): (r: StackOutcome)
    requires InUserRange(rsp)
    ensures r.Completed? <==> forall k :: 0 <= k < STACK_SLOTS ==> o.readQword(SlotAddress(rsp, k)).Some?
    ensures r.Completed? ==> |r.lines| == STACK_SLOTS
    ensures r.Faulted? ==> |r.lines| < STACK_SLOTS && o.readQword(SlotAddress(rsp, |r.lines|)).None?
    ensures forall k :: 0 <= k < |r.lines| ==> ShowsSlot(o, rsp, k, r.lines[k])
  {
    var n := ReadableRun(o, rsp, 0);
    var lines := seq(n, k requires 0 <= k < n => SlotLine(o, k, o.readQword(SlotAddress(rsp, k)).value));
    assert |lines| == n;
    if n == STACK_SLOTS then Completed(lines)
    else
      assert o.readQword(SlotAddress(rsp, n)).None?;
      Faulted(lines)
  }

  /** The slot labels run through the offsets 0, 8, ..., 0x78 in order. */
  lemma SlotOffsets(k: nat)
    requires k < STACK_SLOTS
    ensures var tag := SlotLabel(k);
      && "  [RSP+" <= tag
      && Canonical(tag[7..|tag| - 2], 16)
      && FromDigits(tag[7..|tag| - 2], 16) == 8 * k
    ensures SlotLabel(0) == "  [RSP+0]\t" && SlotLabel(STACK_SLOTS - 1) == "  [RSP+78]\t"
  {
    var tag := SlotLabel(k);
    assert tag[7..|tag| - 2] == Hex(8 * k);
    HexRoundTrip(8 * k, "");
    assert Hex(0x78) == "78";
  }

  // ---------------------------------------------------------------- the report

  /** The three sections `print_exception_info` writes; the Stack section is optional. */
  datatype ExceptionReport = ExceptionReport(
    callStack: seq<string>, registers: seq<string>, stack: Option<StackOutcome>)
  {
    /** The report ends in a fault raised while reading the stack. */
    predicate Faulted() {
      stack.Some? && stack.value.Faulted?
    }

    /** The lines the report adds to the log, in order. */
    function Lines(): seq<string> {
      Section("Call Stack", callStack) + Section("Registers", registers)
      + match stack
        case None => []
        case Some(Completed(slots)) => Section("Stack", slots)
        case Some(Faulted(slots)) => ["", "Stack", "{"] + slots
    }
  }

  /** `print_exception_info`. */
  function ExceptionInfo(o: Oracles, c: Context, fuel: nat): (r: ExceptionReport)
    ensures var frames := CallStack(o.stepFrame, c, fuel);
      |r.callStack| == |frames| && forall i :: 0 <= i < |frames| ==> r.callStack[i] == FrameLine(o, frames[i])
    ensures |r.registers| == |RegisterNames|
    ensures forall i :: 0 <= i < |RegisterNames| ==>
      r.registers[i] == RegisterLine(o, RegisterNames[i], RegisterValues(c)[i])
    ensures r.stack.Some? <==> InUserRange(c.rsp)
    ensures r.stack.Some? ==> r.stack.value == StackSlots(o, c.rsp)
    ensures r.Faulted() ==> exists k :: 0 <= k < STACK_SLOTS && o.readQword(SlotAddress(c.rsp, k)).None?
  {
    var frames := CallStack(o.stepFrame, c, fuel);
    var stack := if InUserRange(c.rsp) then Some(StackSlots(o, c.rsp)) else None;
    ExceptionReport(FrameLines(o, frames), RegisterLines(o, c), stack)
  }

  /**
   * The report's layout: a blank line, the title and `{` open each
   * section, `}` closes it; the Stack section follows the Registers section
   * only when present, and a fault while reading the stack leaves it
   * without its closing brace.
   */
  lemma ReportLayout(r: ExceptionReport)
    ensures var lines := r.Lines();
      var cs := r.callStack;
      var n := |cs| + |r.registers|;
      && |lines| >= n + 8
      && lines[..3] == ["", "Call Stack", "{"] && lines[3..3 + |cs|] == cs && lines[3 + |cs|] == "}"
      && lines[4 + |cs|..7 + |cs|] == ["", "Registers", "{"]
      && lines[7 + |cs|..7 + n] == r.registers && lines[7 + n] == "}"
      && (r.stack.None? ==> |lines| == n + 8)
      && (r.stack.Some? ==>
            && lines[8 + n..11 + n] == ["", "Stack", "{"]
            && lines[11 + n..11 + n + |r.stack.value.lines|] == r.stack.value.lines)
      && (r.stack.Some? && r.stack.value.Completed? ==>
            |lines| == n + 12 + |r.stack.value.lines| && lines[|lines| - 1] == "}")
      && (r.Faulted() ==> |lines| == n + 11 + |r.stack.value.lines|)
  {
    var cs := r.callStack;
    var n := |cs| + |r.registers|;
    var first := Section("Call Stack", cs);
    var second := Section("Registers", r.registers);
    SectionLayout("Call Stack", cs);
    SectionLayout("Registers", r.registers);
    var rest := r.Lines()[n + 8..];
    assert r.Lines() == first + second + rest;
    assert r.Lines()[..|first|] == first;
    assert r.Lines()[|first|..n + 8] == second;
    if r.stack.Some? {
      var slots := r.stack.value.lines;
      if r.stack.value.Completed? {
        SectionLayout("Stack", slots);
        assert rest == Section("Stack", slots);
      } else {
        assert rest == ["", "Stack", "{"] + slots;
      }
    }
  }

  /** Line i of the Call Stack section shows ordinal i and the PC of the i-th walked frame. */
  lemma CallStackLineShowsOrdinal(o: Oracles, c: Context, fuel: nat, r: ExceptionReport, i: nat)
    requires r == ExceptionInfo(o, c, fuel)
    requires i < |r.callStack|
    ensures var line := r.callStack[i];
      var pcText := ToAddressString(o, CallStack(o.stepFrame, c, fuel)[i].pc, false).text;
      var close := |line| - |pcText| - 2;
      && 3 < close && line[close + 2..] == pcText
      && Canonical(line[3..close], 10) && FromDigits(line[3..close], 10) == i
  {
    var fr := CallStack(o.stepFrame, c, fuel)[i];
    assert r.callStack[i] == FrameLine(o, fr);
    FrameLineShowsFrame(o, fr);
  }

  /**
   * Line i of the Registers section is the tag `  <name>:` and a tab, then
   * the value of the very register that name denotes, rendered with
   * dereferencing.
   */
  lemma RegisterLineShowsRegister(o: Oracles, c: Context, fuel: nat, r: ExceptionReport, i: nat)
    requires r == ExceptionInfo(o, c, fuel)
    requires i < |RegisterNames|
    ensures var name := RegisterNames[i];
      && RegisterNamed(c, name).Some?
      && r.registers[i] == "  " + name + ":\t" + ToAddressString(o, RegisterNamed(c, name).value, true).text
  {
    RegisterOrderPairsNames(c, i);
  }
}

=== FILE: resolver.dfy ===
/**
 * `to_address_string`: the text the crash log shows for an address. The
 * rendering also records which oracle queries it issued, at which nesting
 * level, so that the guards on the memory read and the one-level bound on
 * the pointee recursion can be stated.
 */
module Resolver {
  import opened Wrappers
  import opened Words
  import opened Numerals
  import opened FileNames
  import opened Environment
  import opened Classifier

  /** Bounds of the plausible user-mode range; both are exclusive. */
  const USER_RANGE_LOW: U64 := 0x1_0000
  const USER_RANGE_HIGH: U64 := 0x7FFF_FFFE_0000

  /** The strict range check guarding the pointer read and the stack section. */
  predicate InUserRange(address: U64) {
    USER_RANGE_LOW < address < USER_RANGE_HIGH
  }

  datatype QueryKind = ModuleLookup | MemoryRead | SymbolLookup

  /** One oracle query; `level` is 0 for the outer call and 1 for the pointee's rendering. */
  datatype Query = Query(kind: QueryKind, address: U64, level: nat)

  datatype Rendering = Rendering(text: string, queries: seq<Query>)

  /** The queries of a nested rendering, one level deeper. */
  function Nested(qs: seq<Query>): seq<Query> {
    seq(|qs|, i requires 0 <= i < |qs| => qs[i].(level := qs[i].level + 1))
  }

  /** Module-relative text `<file>+<offset>` when the owning image is known, bare hex otherwise. */
  function AddressText(address: U64, owner: Option<(U64, string)>): string {
    match owner
    case Some((base, path)) => FileName(path) + "+" + Hex(Sub64(address, base))
    case None => Hex(address)
  }

  /** A symbol name, followed by `+0x<displacement>` unless the displacement is zero. */
  function SymbolText(sym: SymbolInfo): string {
    if sym.displacement != 0 then sym.name + "+0x" + Hex(sym.displacement) else sym.name
  }

  /**
   * The value the pointer read leaves in the zero-initialised `value`: what
   * the copy left there when the read is attempted (the call's own success
   * is not consulted), 0 when it is not.
   */
  function PointeeValue(o: Oracles, address: U64, tryDeref: bool): U64 {
    if tryDeref && InUserRange(address) then o.copyQword(address) else 0
  }

  /**
   * The outer-level queries of one rendering, in the order the source issues
   * them: the module lookup, the pointer read when it is attempted, then the
   * symbol lookup.
   */
  function OuterQueries(address: U64, attempted: bool): (qs: seq<Query>)
    ensures |qs| == (if attempted then 3 else 2)
    ensures qs[0] == Query(ModuleLookup, address, 0)
    ensures qs[|qs| - 1] == Query(SymbolLookup, address, 0)
    ensures forall i :: 0 <= i < |qs| ==> qs[i].level == 0 && qs[i].address == address
    ensures forall i :: 0 <= i < |qs| ==> (qs[i].kind == MemoryRead <==> attempted && i == 1)
  {
    [Query(ModuleLookup, address, 0)]
      + (if attempted then [Query(MemoryRead, address, 0)] else [])
      + [Query(SymbolLookup, address, 0)]
  }

  /** `to_address_string(address, tryDeref)`. */
  function ToAddressString(o: Oracles, address: U64, tryDeref: bool): (r: Rendering)
    ensures AddressText(address, ModuleOf(o, address)) <= r.text
    // the outer queries come first, guarded by the range check ...
    ensures var outer := OuterQueries(address, tryDeref && InUserRange(address));
      |outer| <= |r.queries| && r.queries[..|outer|] == outer
    // ... and whatever follows belongs to the pointee, one level down, and reads no memory
    ensures var n := |OuterQueries(address, tryDeref && InUserRange(address))|;
      forall i :: n <= i < |r.queries| ==> r.queries[i].level == 1 && r.queries[i].kind != MemoryRead
    ensures !tryDeref ==> |r.queries| == 2
    decreases if tryDeref then 1 else 0
  {
    var owner := ModuleOf(o, address);
    var value := PointeeValue(o, address, tryDeref);
    var addrStr := AddressText(address, owner);
    var queries := OuterQueries(address, tryDeref && InUserRange(address));
    match o.symbolAt(address)
    case Some(sym) => Rendering(addrStr + "\t(" + SymbolText(sym) + ")", queries)
    case None =>
      if value != 0 then
        var pointee := ToAddressString(o, value, false);
        var r := Rendering(addrStr + " [" + pointee.text + "]", queries + Nested(pointee.queries));
        assert r.queries[..|queries|] == queries;
        r
      else Rendering(addrStr, queries)
  }

  /**
   * The query trace of any rendering: it starts with the module lookup of
   * the address, the recursion goes at most one level deep (and not at all
   * without dereferencing), and memory is read at most once, only at the
   * address itself and only when asked and in range.
   */
  lemma QueryShape(o: Oracles, address: U64, tryDeref: bool, r: Rendering)
    requires r == ToAddressString(o, address, tryDeref)
    ensures |r.queries| >= 2 && r.queries[0] == Query(ModuleLookup, address, 0)
    ensures forall i :: 0 <= i < |r.queries| ==> r.queries[i].level <= 1
    ensures !tryDeref ==> forall i :: 0 <= i < |r.queries| ==> r.queries[i].level == 0
    ensures forall i :: 0 <= i < |r.queries| && r.queries[i].kind == MemoryRead ==>
      i == 1 && r.queries[i] == Query(MemoryRead, address, 0) && tryDeref && InUserRange(address)
  {
    var outer := OuterQueries(address, tryDeref && InUserRange(address));
    forall i | 0 <= i < |outer|
      ensures r.queries[i] == outer[i]
    {
      assert r.queries[..|outer|][i] == outer[i];
    }
  }

  /**
   * The address part of the text locates the address: with an owning image
   * it is `<file name>+<hex offset>` where the offset is the DWORD64
   * difference address - base (so base + offset gives back the address, see
   * `Sub64`); without one it is the address itself in hexadecimal.
   */
  lemma AddressTextLocatesAddress(address: U64, owner: Option<(U64, string)>)
    ensures owner.None? ==>
      var text := AddressText(address, owner);
      Canonical(text, 16) && FromDigits(text, 16) == address
    ensures owner.Some? ==>
      var prefix := FileName(owner.value.1) + "+";
      var text := AddressText(address, owner);
      && prefix <= text
      && Canonical(text[|prefix|..], 16)
      && FromDigits(text[|prefix|..], 16) == Sub64(address, owner.value.0)
  {
    if owner.None? {
      HexRoundTrip(address, "");
    } else {
      var prefix := FileName(owner.value.1) + "+";
      var offset := Sub64(address, owner.value.0);
      assert AddressText(address, owner)[|prefix|..] == Hex(offset);
      HexRoundTrip(offset, "");
    }
  }

  /** The symbol part: the bare name for a zero displacement, else the name and the displacement in hex. */
  lemma SymbolTextShowsDisplacement(sym: SymbolInfo)
    ensures sym.displacement == 0 ==> SymbolText(sym) == sym.name
    ensures sym.displacement != 0 ==>
      var prefix := sym.name + "+0x";
      var text := SymbolText(sym);
      && prefix <= text
      && Canonical(text[|prefix|..], 16)
      && FromDigits(text[|prefix|..], 16) == sym.displacement
  {
    if sym.displacement != 0 {
      var prefix := sym.name + "+0x";
      assert SymbolText(sym)[|prefix|..] == Hex(sym.displacement);
      HexRoundTrip(sym.displacement, "");
    }
  }

  /**
   * The memory read is issued exactly when it is asked for and the address
   * is strictly inside the user-mode range, and it precedes the symbol
   * lookup for the same address.
   */
  lemma ReadGuardAndOrder(o: Oracles, address: U64, tryDeref: bool, r: Rendering)
    requires r == ToAddressString(o, address, tryDeref)
    ensures (exists i :: 0 <= i < |r.queries| && r.queries[i].kind == MemoryRead)
      <==> tryDeref && InUserRange(address)
    ensures forall i, j ::
      (0 <= i < |r.queries| && 0 <= j < |r.queries| && r.queries[i].kind == MemoryRead
       && r.queries[j] == Query(SymbolLookup, address, 0)) ==> i < j
  {
    var outer := OuterQueries(address, tryDeref && InUserRange(address));
    QueryShape(o, address, tryDeref, r);
    if tryDeref && InUserRange(address) {
      assert r.queries[..|outer|][1] == outer[1];
      assert r.queries[1].kind == MemoryRead;
    }
  }

  /**
   * A found symbol decides the text: the address part followed by a tab and
   * the parenthesised symbol, with no pointee and no nested lookups.
   */
  lemma SymbolSuppressesPointee(o: Oracles, address: U64, tryDeref: bool)
    requires o.symbolAt(address).Some?
    ensures var r := ToAddressString(o, address, tryDeref);
      && r.text == AddressText(address, ModuleOf(o, address)) + "\t(" + SymbolText(o.symbolAt(address).value) + ")"
      && forall i :: 0 <= i < |r.queries| ==> r.queries[i].level == 0
  {
  }

  /**
   * A bracketed pointee is appended exactly when no symbol is found and the
   * guarded read yields a non-zero word; it is that word rendered without
   * dereferencing. Otherwise, with no symbol, the text is the address part alone.
   */
  lemma PointeeExactlyWhenNonZeroRead(o: Oracles, address: U64, tryDeref: bool, r: Rendering)
    requires r == ToAddressString(o, address, tryDeref)
    ensures (exists i :: 0 <= i < |r.queries| && r.queries[i].level == 1)
      <==> o.symbolAt(address).None? && tryDeref && InUserRange(address)
           && o.copyQword(address) != 0
    ensures (o.symbolAt(address).None? && tryDeref && InUserRange(address)
             && o.copyQword(address) != 0) ==>
      r.text == AddressText(address, ModuleOf(o, address)) + " ["
        + ToAddressString(o, o.copyQword(address), false).text + "]"
    ensures (o.symbolAt(address).None?
             && !(tryDeref && InUserRange(address) && o.copyQword(address) != 0)) ==>
      r.text == AddressText(address, ModuleOf(o, address))
  {
    var v := PointeeValue(o, address, tryDeref);
    var outer := OuterQueries(address, tryDeref && InUserRange(address));
    if o.symbolAt(address).None? && v != 0 {
      var pointee := ToAddressString(o, v, false);
      assert r.queries == outer + Nested(pointee.queries);
      assert r.queries[|outer|].level == 1;
    } else {
      assert r.queries == outer;
    }
  }
}

=== FILE: words.dfy ===
/** Fixed-width unsigned machine words (DWORD and DWORD64) as bounded integers. */
module Words {

  const TWO_TO_32: int := 0x1_0000_0000
  const TWO_TO_64: int := 0x1_0000_0000_0000_0000

  /** A DWORD, such as an exception code. */
  type U32 = x: int | 0 <= x < TWO_TO_32

  /** A DWORD64, such as an address or a register value. */
  type U64 = x: int | 0 <= x < TWO_TO_64

  /** Unsigned 64-bit subtraction, wrapping around modulo 2^64 as DWORD64 arithmetic does. */
  function Sub64(a: U64, b: U64): (r: U64)
    ensures (b + r) % TWO_TO_64 == a
    ensures b <= a ==> r == a - b
    ensures a < b ==> r == TWO_TO_64 - (b - a)
  {
    (a - b) % TWO_TO_64
  }
}

=== FILE: wrappers.dfy ===
/** The optional-value datatype used for every oracle that can fail. */
module Wrappers {

  /** `None` stands for a failed OS query, `Some(v)` for a successful one. */
  datatype Option<+T> = None | Some(value: T)
}
